=== FILE: README.md ===
# Meu Diário Fit — a Dafny model of the record lifecycle

Meu Diário Fit is a small React Native diary. Each day's entry records minutes of
exercise, calories and cups of water. This project models the logic behind its main
screen as pure functions over a sequence of entries, and proves properties of that logic:

- `handleSave`, `handleDelete`, `handleEdit` and `handleCancel` in `App.js`. They are
  modelled as transitions of a `Session`, which holds the stored entries and the edit
  target `editingId`.
- The sort block that orders the list, in mode `maior_agua` or `recentes`.
- The lookup of the entry being edited (`registros.find(...) || null`).
- The chart data built by `Grafico`.
- The form: its prefill effect, its save click and its cancel button (`Formulario`).
- JavaScript's `parseInt(s, 10)` and `String(x)`, which the form and the save handler
  depend on. They are modelled literally:
  - skip leading white space;
  - read an optional sign and the longest run of digits;
  - give NaN when no digit is found.
  - `NaN < 0` is false, so NaN passes validation and is stored.

Modules, one per file:

- `JsNumbers` (`jsnumbers.dfy`): the two number conversions.
- `Records` (`records.dfy`): the entry and the lookup by id.
- `Lifecycle` (`lifecycle.dfy`): the four handlers.
- `Ordering` (`ordering.dfy`): the list order.
- `Chart` (`chart.dfy`): the chart series.
- `Form` (`form.dfy`): the form.
- `App` (`app.dfy`): one render, every action as one step, the invariants the actions
  keep, and the corrected delete.
- `Walks` (`walks.dfy`): short sequences of user actions, and the run behind the
  finding below.

The clock (`new Date().getTime()`) is the parameter `now`. The two locale date texts
(`toLocaleDateString('pt-BR')`) are the parameters `today` and `dayMonth`.

A few behaviours of the code are easy to misread:

- **Chart order.** The chart shows the stored order reversed, so the newest entry is on
  the left, as the comment at `components/Grafico.js:25` says.
- **Starting an edit.** `handleEdit` (`App.js:81-83`) sets the target without checking
  that an entry carries the id.
- **Deleting.** The `filter` in `handleDelete` (`App.js:77`) removes every entry with
  the id.
- **Editing.** The edit `map` (`App.js:55-59`) rewrites every entry with the target id,
  and none when no entry carries it.
- **Edit mode.** `if (editingId)` (`App.js:54`) is truthiness: null and the id 0 both
  mean create mode.
- **List modes.** The list mode `ordenacao` is a two-value datatype. Its initial value
  (`App.js:25`) and the two buttons (`App.js:141-142`) only ever set `'recentes'` or
  `'maior_agua'`.

## Model

| member | source | states |
|---|---|---|
| JsNumbers.TrimStart | App.js:43-45 | `parseInt` first drops leading white space: what remains is a suffix of the input, every dropped character is white space, and what remains does not start with white space |
| JsNumbers.DigitPrefix | App.js:43-45 | the digits `parseInt` reads are a prefix of the text, are all digits, and are the longest such prefix |
| JsNumbers.NatToDecimal | components/Formulario.js:11-13 | `String(n)` of a natural number is a non-empty string of digits, has no leading zero, and its digits have the value n |
| JsNumbers.IsNegative | App.js:47 | `x < 0`: NaN is never negative, and a number is negative exactly when it is below zero |
| JsNumbers.Minus | App.js:126-128 | `x - y` on parsed values: NaN when either side is NaN, otherwise the number that added to y gives x |
| JsNumbers.ParseInt | App.js:43-45 | `parseInt(_, 10)` skips leading white space, reads one optional sign and then the longest digit run: it is NaN exactly when that run is empty; otherwise it is the run's value, negated exactly when the sign is a minus |
| JsNumbers.Show | components/Formulario.js:11-13 | `String(x)`: NaN prints as "NaN"; a natural number prints as digits only, with no leading zero, whose value is the number; a negative number prints as a minus sign followed by such digits, whose value is its magnitude |
| JsNumbers.ParseUnsigned | App.js:43-45 | on text that starts with neither a space nor a sign, `parseInt` is the value of its digit prefix, or NaN when there is none |
| JsNumbers.ParseMinus | App.js:43-45 | a minus sign followed by digits parses to the negated value of the digits |
| JsNumbers.ShowParseRoundTrip | components/Formulario.js:11-13 | parsing the text the form writes for a stored value gives that value back, for negative numbers and NaN too |
| JsNumbers.NaturalRoundTrip | App.js:43-45 | `parseInt(String(n), 10) == n` for every natural number n |
| JsNumbers.NegativeRoundTrip | App.js:43-45 | the same round trip for negative numbers, through the minus sign |
| JsNumbers.ParseSkipsLeadingSpace | App.js:43-45 | leading white space never changes what a field parses to |
| JsNumbers.TrimSkipsSpace | App.js:43-45 | dropping leading white space ignores any white-space prefix |
| JsNumbers.ParseIgnoresSuffix | App.js:43-45 | text after the digits is ignored: "12abc" parses to 12 |
| JsNumbers.EmptyIsNaN | App.js:43-45 | an empty field parses to NaN |
| JsNumbers.NonNumericIsNaN | App.js:43-47 | blank text, the empty string included, and text that starts with neither a sign nor a digit parse to NaN |
| JsNumbers.NegativeIffMinusDigits | App.js:47 | a field counts as negative exactly when, after white space, a minus sign is followed by digits of non-zero value |
| Records.FindById | App.js:149 | the lookup finds something iff there is a target and some entry carries it; what it finds carries the target, is stored, and is the first entry with that id |
| Records.FindUniqueId | App.js:149 | when no two entries share an id, looking up an entry's id returns that very entry |
| Records.IncreasingIsUnique | App.js:63-70 | ids that increase along the stored order are unique, so the results stated for unique ids hold for every diary whose saves read a clock later than every stored id (App.StepKeepsIdsIncreasing) |
| Records.Reverse | components/Grafico.js:25 | `reverse()` keeps the length and puts the element at position n-1-i at position i |
| Records.ReverseReverse | components/Grafico.js:25 | reversing twice gives the sequence back |
| Lifecycle.Truthy | App.js:54 | `if (editingId)`: null and 0 are falsy, every other id is truthy |
| Lifecycle.AnyNegative | App.js:47 | the validation test fails to fire exactly when each of the three values is NaN or at least zero |
| Lifecycle.Rewrite | App.js:55-59 | the edit `map` keeps the length and every id and date; entries with the target id get the three new values; all other entries are unchanged |
| Lifecycle.Save | App.js:42-74 | the save, in terms of the three field texts. It rejects iff some parsed value is negative, and then changes nothing. An edit (a truthy target) keeps length, ids and dates, and gives only the entries with the target id the three parsed values. A create appends exactly one entry, stamped with the clock and holding the parsed values. Every accepted save clears the target |
| Lifecycle.Store | App.js:47-73 | the same contract, stated over the parsed values |
| Lifecycle.Delete | App.js:77 | deleting an id never grows the list, and an entry remains exactly when it was stored and does not carry the id |
| Lifecycle.DeleteCounts | App.js:77 | deleting keeps every entry without the id exactly as many times as it was stored, and none with it |
| Lifecycle.DeleteAppend | App.js:77 | the filter distributes over concatenation, so what remains keeps its order |
| Lifecycle.DeleteAbsent | App.js:77 | deleting an id no entry carries returns the entries unchanged |
| Lifecycle.DeleteIdempotent | App.js:77 | deleting twice is deleting once |
| Lifecycle.HandleDelete | App.js:76-79 | after a delete the entries are exactly what the filter `Delete` leaves, so they keep their order and count (DeleteAppend, DeleteCounts): exactly the stored entries that do not carry the id. The edit target is left as it was |
| Lifecycle.BeginEdit | App.js:81-83 | starting an edit targets the entry's id and leaves the entries untouched |
| Lifecycle.Cancel | App.js:85-87 | cancelling clears the target and leaves the entries untouched |
| Lifecycle.StoreKeepsNoNegatives | App.js:47-52 | no save ever stores a negative number into entries that held none |
| Lifecycle.StoreKeepsIdsIncreasing | App.js:63-70 | a save stamped later than every stored entry keeps ids increasing along the stored order |
| Lifecycle.DeleteKeepsIdsIncreasing | App.js:77 | deleting keeps ids increasing along the stored order |
| Lifecycle.DeleteKeepsBound | App.js:77 | deleting keeps every id above a bound that all ids were above |
| Ordering.Insert | App.js:124-129 | one insertion step of the sort with the comparator: the result holds one entry more than the list it was inserted into |
| Ordering.SortBy | App.js:124-129 | `Array.prototype.sort` with the comparator returns as many entries as it was given. Permutation, order and stability are stated by SortByPermutes, SortBySorted and SortByStable |
| Ordering.Key | App.js:125-128 | the value the comparator subtracts: the water in `maior_agua`, the id in `recentes` |
| Ordering.Above | App.js:125-128 | the comparator `(a, b) => key(b) - key(a)` returns a negative number, so the first entry strictly belongs before the second. A NaN result is not negative and never moves an entry |
| Ordering.InsertPermutes | App.js:124-129 | inserting into the sorted copy adds exactly the one entry |
| Ordering.SortByPermutes | App.js:124-129 | the sort returns a permutation of its input |
| Ordering.OrderedView | App.js:123-129 | the list is a permutation of the stored entries. In mode `recentes` the ids are non-increasing. In `maior_agua`, when every water value is a number, the water values are non-increasing. In every mode, the entries sharing a key keep their stored order (stability) |
| Ordering.SortByOrders | App.js:124-129 | the insertion sort is ordered when its keys are numbers (ids always are) and stable in every case |
| Ordering.InsertSorted | App.js:124-129 | inserting into a sorted list of numeric keys keeps it sorted |
| Ordering.InsertBelow | App.js:124-129 | inserting keeps every entry from belonging before an entry that none of them belonged before |
| Ordering.SortBySorted | App.js:124-129 | the sort with numeric keys is sorted |
| Ordering.WithKeyCons | App.js:124-129 | putting an entry in front puts it in front of the entries that share its key |
| Ordering.InsertStable | App.js:124-129 | the inserted entry lands first among the entries with its key, and every other key's entries keep their order |
| Ordering.SortByStable | App.js:124-129 | the entries that share a key leave the sort in the order they came in |
| Ordering.InsertLast | App.js:124-129 | an entry that every other entry belongs before goes last |
| Ordering.KeysNumericByMultiset | App.js:124-129 | a permutation of entries with numeric keys has numeric keys |
| Ordering.RecentIsReversedStorage | App.js:127-128 | when every entry was appended later than the one before it, the `recentes` list is exactly the stored order reversed |
| Chart.Labels | components/Grafico.js:18-24 | the label series has one day/month text per entry, in stored order, each taken from the entry's id |
| Chart.Water | components/Grafico.js:28 | the water series has one value per entry, in stored order, each the entry's water |
| Chart.Derive | components/Grafico.js:8-28 | placeholder iff fewer than two entries. Otherwise both series have the collection's length, and position i holds the water value and the day/month label of the entry stored at n-1-i |
| Chart.SeriesUndoReversal | components/Grafico.js:18-28 | the chart only reorders: reversing its series gives back the stored water values and labels, in stored order |
| Chart.NewestOnTheLeft | components/Grafico.js:25 | with ids increasing, the chart reads left to right exactly like the `recentes` list: newest on the left |
| Form.Typed | components/Formulario.js:11-13 | each field holds `String(x)` of its value, and parses back to that value |
| Form.Prefill | components/Formulario.js:9-19 | with no entry under edit the three fields are empty; otherwise each field holds `String(x)` of the value stored in the entry, and parses back to it |
| Form.Submit | components/Formulario.js:21-23 | the save click hands exercise, calories and water to the matching slots of the save: each parsed field lands in the field of the same name |
| Form.CancelOffered | components/Formulario.js:57-61 | the cancel button is rendered when an entry is under edit, and not when `registroEmEdicao` is null |
| Form.UnmodifiedPrefillKeepsEntry | components/Formulario.js:9-23 | saving the prefilled form unchanged updates, clears the target and keeps the edited entry; when no two entries share an id, the entries stay exactly as they were |
| Form.StoreSameValues | App.js:54-59 | an edit that stores the target entry's own values leaves that entry as it was, and when no two entries share an id leaves every entry as it was |
| Form.SubmitParsed | components/Formulario.js:21-23 | submitting fields stores exactly what the fields parse to |
| Form.FreshFormStoresNaN | components/Formulario.js:15-17 | in create mode, the cleared form sends three empty fields, which pass validation and are stored as NaN |
| Form.CancelOnlyWhileEditing | components/Formulario.js:57-61 | cancel is offered exactly when the edit target names a stored entry, and never without a target |
| App.Render | App.js:131-157 | the chart is derived from the stored entries, not the sorted copy, and is a placeholder iff there are fewer than two. The list is a permutation of the entries: ids non-increasing in `recentes`, water non-increasing in `maior_agua` when every water value is a number, and the entries sharing a key in their stored order. The form receives the first entry carrying the target (the `find` at App.js:149, or null), and cancel is offered iff the target names a stored entry |
| App.ChartIgnoresOrdering | App.js:137 | the chart is the same in every list mode |
| App.Step | App.js:42-87 | the four handlers as one dispatch: a save is the form's submit, which either changes nothing or clears the target; a delete is `handleDelete`; an edit only sets the target to the entry's id; a cancel only clears it |
| App.StepKeepsNoNegatives | App.js:42-87 | no action ever stores a negative number |
| App.StepKeepsIdsIncreasing | App.js:42-87 | while the clock moves forward, every action keeps the ids increasing along the stored order |
| App.DeleteReleasing | App.js:76-79 | the corrected delete removes the same entries, and clears the target when it names the deleted id, so a valid target stays valid |
| App.StepReleasing | App.js:76-87 | the corrected dispatch: every action but a delete does what `Step` does; a delete removes the same entries and clears the target when it names the deleted id |
| App.ReleasingStepKeepsTargetValid | App.js:76-87 | with the corrected delete, every action the screen can issue keeps the edit target pointing at a stored entry |
| Walks.SaveEditDeleteWalk | App.js:42-79 | in one run, with numbers typed into the form: a save creates the entry, a save with a negative value changes nothing, editing and saving updates the entry in place with its id and date kept, and deleting removes it |
| Walks.MostWaterWalk | App.js:125-126 | three entries with water low, high, middle list as high, middle, low in `maior_agua` |
| Walks.RecentWalk | App.js:127-128 | the same entries list newest first in `recentes` |
| Walks.ChartWalk | components/Grafico.js:28 | the same entries chart as middle, high, low: the reversed stored order, whatever the list mode |
| Walks.StaleTargetSwallowsEntry | App.js:76-79 | as written: after deleting the entry under edit, the screen shows an empty create form without cancel, yet the next valid save takes the edit path and stores nothing |
| Walks.ReleasedTargetKeepsEntry | App.js:76-79 | with the corrected delete, the same save creates the entry |

## Left out

- Persistence (`App.js:27-40`). The initial load and the save-on-change effect are
  asynchronous I/O through `services/Database`, which is not part of this model.
- Data export (`App.js:89-113`): Blob download, file system and share sheet, all
  platform I/O.
- Not modelled: alerts, the loading spinner, JSX layout, styles and the `LineChart`
  drawing. The model keeps what each handler stores, plus the outcome of a save
  (rejected, updated or created), which decides which alert is shown.
- The clock and the locale date formatting are parameters, not models.
- React's state-update scheduling. Each handler is one atomic transition of the
  session. The form's field edits (`onChangeText`) are whatever `Fields` value is
  submitted.
- `ListaRegistros` is not part of this model. Its edit and delete buttons are modelled
  only through the actions they trigger.
- JsNumbers.ParseInt: numbers are unbounded integers. The loss of precision that
  doubles have above 2^53 is not modelled, and `-0` is the integer 0. Neither changes
  the negativity test or the round trip of values the form produces.
- JsNumbers.NatToDecimal: `String(x)` switches to exponent form for |x| >= 10^21. That
  is not modelled, so the round trip is proved for the decimal form only.
- Ordering.OrderedView: promises sortedness in mode `maior_agua` only when every water
  value is a number. With a NaN key the comparator returns NaN, which sorts treat as
  "equal". The comparator is then inconsistent, and ECMAScript leaves the order
  implementation-defined. The model fixes one order, a stable insertion sort. The
  permutation and the stability still hold.
- JsNumbers.Show: prints through NatToDecimal, so it shares the decimal-only form above.
- Ordering.SortBy: its own contract states only the length. That the result is a
  permutation, ordered for numeric keys and stable is stated by SortByPermutes,
  SortBySorted and SortByStable, to keep the recursive definition cheap to reason about.
- Ordering.Insert: its own contract states only the length. What it inserts, where, and
  in what order is stated by InsertPermutes, InsertSorted, InsertStable and InsertLast.
- Lifecycle.Delete: its own contract states which entries remain. How many times each
  remains is stated by DeleteCounts, and their order by DeleteAppend.

## Findings

| source | as written | input that shows it | evidently intended | confidence | as-written member | corrected member |
|---|---|---|---|---|---|---|
| App.js:76-79 | `handleDelete` removes the entry but leaves `editingId` set, and `handleSave` takes the edit path whenever `editingId` is truthy (App.js:54) | Edit entry X, delete X, then save any valid values in the empty form that now says "Novo Registro". The save updates no entry and nothing is stored, yet the "updated" alert is shown | deleting the entry under edit also ends the edit, so the next save creates an entry | not executed | Walks.StaleTargetSwallowsEntry | App.DeleteReleasing |

=== FILE: app.dfy ===
/**
  The main screen put together: what one render shows, the user actions as
  one transition function, the invariants every action keeps, and a
  corrected delete that releases the edit target.
*/
module App {
  import opened JsNumbers
  import opened Records
  import opened Lifecycle
  import Ordering
  import Chart
  import opened Form

  /** What one render hands to its children. */
  datatype Screen = Screen(
    chart: Chart.Chart,
    list: seq<Record>,
    editingRecord: Option<Record>,
    cancelOffered: bool)

  /**
    The render of `App`: the chart receives the stored entries, the list the
    sorted copy, the form the entry found under the edit target.
  */
  function Render(s: Session, ordenacao: Ordering.Ordenacao, dayMonth: int -> string): (v: Screen)
    ensures v.chart == Chart.Derive(s.records, dayMonth)
    ensures v.chart.Placeholder? <==> |s.records| < 2
    ensures multiset(v.list) == multiset(s.records)
    ensures ordenacao == Ordering.Recentes ==> forall i, j :: 0 <= i < j < |v.list| ==> v.list[i].id >= v.list[j].id
    ensures ordenacao == Ordering.MaiorAgua && Ordering.KeysNumeric(ordenacao, s.records) ==>
              forall i, j :: 0 <= i < j < |v.list| ==> v.list[i].agua.Num? && v.list[j].agua.Num? && v.list[i].agua.n >= v.list[j].agua.n
    ensures forall k :: Ordering.WithKey(ordenacao, v.list, k) == Ordering.WithKey(ordenacao, s.records, k)
    ensures v.editingRecord == FindById(s.records, s.editing)
    ensures v.editingRecord.Some? ==> s.editing.Some? && v.editingRecord.value in s.records
    ensures v.cancelOffered <==> s.editing.Some? && HasId(s.records, s.editing.value)
  {
    var found := FindById(s.records, s.editing);
    Screen(Chart.Derive(s.records, dayMonth), Ordering.OrderedView(s.records, ordenacao), found, CancelOffered(found))
  }

  /** The chart does not depend on the list's sort mode. */
  lemma ChartIgnoresOrdering(s: Session, ordenacao: Ordering.Ordenacao, other: Ordering.Ordenacao, dayMonth: int -> string)
    ensures Render(s, ordenacao, dayMonth).chart == Render(s, other, dayMonth).chart
  {
  }

  /** A user action on the main screen. `now` and `today` are the clock and its date text at the moment of saving. */
  datatype Action =
    | SaveEntry(fields: Fields, now: int, today: string)
    | DeleteEntry(id: int)
    | EditEntry(registro: Record)
    | CancelEdit

  /** The session after one action, as the handlers leave it. */
  function Step(s: Session, a: Action): (r: Session)
    ensures a.SaveEntry? ==> r == Submit(s, a.fields, a.now, a.today).session
    ensures a.SaveEntry? ==> r == s || r.editing == None
    ensures a.DeleteEntry? ==> r == HandleDelete(s, a.id)
    ensures a.DeleteEntry? ==> r.editing == s.editing && forall x :: x in r.records <==> x in s.records && x.id != a.id
    ensures a.EditEntry? ==> r == Session(s.records, Some(a.registro.id))
    ensures a.CancelEdit? ==> r == Session(s.records, None)
  {
    match a
    case SaveEntry(f, now, today) => Submit(s, f, now, today).session
    case DeleteEntry(id) => HandleDelete(s, id)
    case EditEntry(r) => BeginEdit(s, r)
    case CancelEdit => Cancel(s)
  }

  /** Starting from entries without negative numbers, no action ever stores one. */
  lemma StepKeepsNoNegatives(s: Session, a: Action)
    requires NoNegatives(s.records)
    ensures NoNegatives(Step(s, a).records)
  {
    match a
    case SaveEntry(f, now, today) =>
      StoreKeepsNoNegatives(s, ParseInt(f.exercicio), ParseInt(f.calorias), ParseInt(f.agua), now, today);
    case DeleteEntry(id) =>
      var r := Delete(s.records, id);
      forall i | 0 <= i < |r|
        ensures !IsNegative(r[i].exercicio) && !IsNegative(r[i].calorias) && !IsNegative(r[i].agua)
      {
        assert r[i] in r;
        assert r[i] in s.records;
      }
    case EditEntry(_) =>
    case CancelEdit =>
  }

  /** While the clock moves forward, every action keeps the ids increasing along the stored order. */
  lemma StepKeepsIdsIncreasing(s: Session, a: Action)
    requires IdsIncreasing(s.records)
    requires a.SaveEntry? ==> forall i :: 0 <= i < |s.records| ==> s.records[i].id < a.now
    ensures IdsIncreasing(Step(s, a).records)
  {
    match a
    case SaveEntry(f, now, today) =>
      StoreKeepsIdsIncreasing(s, ParseInt(f.exercicio), ParseInt(f.calorias), ParseInt(f.agua), now, today);
    case DeleteEntry(id) =>
      DeleteKeepsIdsIncreasing(s.records, id);
    case EditEntry(_) =>
    case CancelEdit =>
  }

  /** The edit target, when set, names a stored entry. */
  predicate TargetValid(s: Session) {
    s.editing.None? || HasId(s.records, s.editing.value)
  }

  /** `handleDelete` that also releases the edit target when it names the deleted id. */
  function DeleteReleasing(s: Session, id: int): (r: Session)
    ensures r.records == HandleDelete(s, id).records
    ensures r.editing == if s.editing == Some(id) then None else s.editing
    ensures TargetValid(s) ==> TargetValid(r)
  {
    var r := Session(Delete(s.records, id), if s.editing == Some(id) then None else s.editing);
    assert TargetValid(s) ==> TargetValid(r) by {
      if TargetValid(s) && r.editing.Some? {
        var i :| 0 <= i < |s.records| && s.records[i].id == s.editing.value;
        var x := s.records[i];
        assert x in r.records;
        var j :| 0 <= j < |r.records| && r.records[j] == x;
      }
    }
    r
  }

  /** `Step` with the releasing delete. */
  function StepReleasing(s: Session, a: Action): (r: Session)
    ensures !a.DeleteEntry? ==> r == Step(s, a)
    ensures a.DeleteEntry? ==> r.records == Step(s, a).records
    ensures a.DeleteEntry? ==> r.editing == if s.editing == Some(a.id) then None else s.editing
  {
    match a
    case DeleteEntry(id) => DeleteReleasing(s, id)
    case _ => Step(s, a)
  }

  /**
    With the releasing delete, every action the screen can issue (an edit
    only ever names a listed entry) keeps the edit target valid.
  */
  lemma ReleasingStepKeepsTargetValid(s: Session, a: Action)
    requires TargetValid(s)
    requires a.EditEntry? ==> a.registro in s.records
    ensures TargetValid(StepReleasing(s, a))
  {
    match a
    case SaveEntry(f, now, today) =>
    case DeleteEntry(id) =>
    case EditEntry(r) =>
      var i :| 0 <= i < |s.records| && s.records[i] == r;
    case CancelEdit =>
  }
}

=== FILE: chart.dfy ===
/**
  The water chart: a placeholder below two entries, otherwise two parallel
  series, the day/month labels and the water values, both in the reverse of
  the stored order.

  `new Date(reg.id).toLocaleDateString('pt-BR', {day, month})` is locale
  formatting inside the platform and is the parameter `dayMonth`.
*/
module Chart {
  import opened JsNumbers
  import opened Records
  import Ordering

  datatype Chart = Placeholder | Series(labels: seq<string>, data: seq<Parsed>)

  /** `registros.map((reg) => <day/month of reg.id>)`. */
  function Labels(records: seq<Record>, dayMonth: int -> string): (labels: seq<string>)
    ensures |labels| == |records|
    ensures forall i :: 0 <= i < |records| ==> labels[i] == dayMonth(records[i].id)
  {
    seq(|records|, i requires 0 <= i < |records| => dayMonth(records[i].id))
  }

  /** `registros.map((reg) => reg.agua)`. */
  function Water(records: seq<Record>): (water: seq<Parsed>)
    ensures |water| == |records|
    ensures forall i :: 0 <= i < |records| ==> water[i] == records[i].agua
  {
    seq(|records|, i requires 0 <= i < |records| => records[i].agua)
  }

  /**
    `Grafico({ registros })`. Position `i` of both series comes from the entry
    stored at `n - 1 - i`, so each label stays beside its own water value.
  */
  function Derive(records: seq<Record>, dayMonth: int -> string): (c: Chart)
    ensures c.Placeholder? <==> |records| < 2
    ensures c.Series? ==> |c.labels| == |records| && |c.data| == |records|
    ensures c.Series? ==> forall i :: 0 <= i < |records| ==>
              var source := records[|records| - 1 - i];
              c.data[i] == source.agua && c.labels[i] == dayMonth(source.id)
  {
    if |records| < 2 then Placeholder
    else Series(Reverse(Labels(records, dayMonth)), Reverse(Water(records)))
  }

  /** Reversing the series again gives the water values in stored order: the chart reorders and never sorts. */
  lemma SeriesUndoReversal(records: seq<Record>, dayMonth: int -> string)
    requires |records| >= 2
    ensures Reverse(Derive(records, dayMonth).data) == Water(records)
    ensures Reverse(Derive(records, dayMonth).labels) == Labels(records, dayMonth)
  {
    ReverseReverse(Water(records));
    ReverseReverse(Labels(records, dayMonth));
  }

  /**
    When every entry was appended later than the one before it, the chart
    reads left to right exactly like the list in its default 'recentes' order:
    the newest entry is on the left.
  */
  lemma NewestOnTheLeft(records: seq<Record>, dayMonth: int -> string)
    requires |records| >= 2
    requires IdsIncreasing(records)
    ensures var c := Derive(records, dayMonth);
            var view := Ordering.OrderedView(records, Ordering.Recentes);
            c.data == Water(view) && c.labels == Labels(view, dayMonth)
  {
    Ordering.RecentIsReversedStorage(records, Ordering.Recentes);
  }
}

=== FILE: form.dfy ===
/**
  The entry form: three text fields, filled from the entry being edited or
  cleared, and handed to the save handler in exercise, calories, water order.
*/
module Form {
  import opened JsNumbers
  import opened Records
  import opened Lifecycle

  datatype Fields = Fields(exercicio: string, calorias: string, agua: string)

  /** Three measurements, in the form's field order. */
  datatype Values = Values(exercicio: Parsed, calorias: Parsed, agua: Parsed)

  /** The fields holding `String(x)` of three values; each parses back to its value. */
  function Typed(v: Values): (f: Fields)
    ensures f.exercicio == Show(v.exercicio) && f.calorias == Show(v.calorias) && f.agua == Show(v.agua)
    ensures ParseInt(f.exercicio) == v.exercicio
    ensures ParseInt(f.calorias) == v.calorias
    ensures ParseInt(f.agua) == v.agua
  {
    ShowParseRoundTrip(v.exercicio);
    ShowParseRoundTrip(v.calorias);
    ShowParseRoundTrip(v.agua);
    Fields(Show(v.exercicio), Show(v.calorias), Show(v.agua))
  }

  /**
    The effect on `registroEmEdicao`: the decimal text of each measurement of
    the entry being edited (`String(x)`), or three empty fields when there is
    none. Parsing a prefilled field gives back the stored value.
  */
  function Prefill(editing: Option<Record>): (f: Fields)
    ensures editing.None? ==> f == Fields("", "", "")
    ensures editing.Some? ==>
              && f.exercicio == Show(editing.value.exercicio)
              && f.calorias == Show(editing.value.calorias)
              && f.agua == Show(editing.value.agua)
    ensures editing.Some? ==>
              && ParseInt(f.exercicio) == editing.value.exercicio
              && ParseInt(f.calorias) == editing.value.calorias
              && ParseInt(f.agua) == editing.value.agua
  {
    match editing
    case None => Fields("", "", "")
    case Some(r) => Typed(Values(r.exercicio, r.calorias, r.agua))
  }

  /**
    `handleSaveClick`: `onSave(minutosExercicio, calorias, coposAgua)`, which
    is `handleSave(exercicio, calorias, agua)`; each field reaches the slot of
    the same name.
  */
  function Submit(s: Session, f: Fields, now: int, today: string): (r: SaveResult)
    ensures r.outcome == Rejected <==> AnyNegative(ParseInt(f.exercicio), ParseInt(f.calorias), ParseInt(f.agua))
    ensures r.outcome == Created ==>
              r.session.records == s.records + [Record(now, today, ParseInt(f.exercicio), ParseInt(f.calorias), ParseInt(f.agua))]
    ensures r.outcome == Updated ==> s.editing.Some? && |r.session.records| == |s.records| && forall i :: 0 <= i < |s.records| && s.records[i].id == s.editing.value ==>
              && r.session.records[i].exercicio == ParseInt(f.exercicio)
              && r.session.records[i].calorias == ParseInt(f.calorias)
              && r.session.records[i].agua == ParseInt(f.agua)
  {
    Save(s, f.exercicio, f.calorias, f.agua, now, today)
  }

  /** `{registroEmEdicao && <cancel button>}`: cancel is offered only while an entry is being edited. */
  function CancelOffered(editing: Option<Record>): (shown: bool)
    ensures editing.None? ==> !shown
    ensures editing.Some? ==> shown
  {
    editing.Some?
  }

  /**
    Submitting the prefilled form unchanged stores the values it was filled
    from: the edited entry is left as it was, and when ids are unique so is
    every entry.
  */
  lemma UnmodifiedPrefillKeepsEntry(s: Session, now: int, today: string)
    requires Truthy(s.editing)
    requires FindById(s.records, s.editing).Some?
    requires var e := FindById(s.records, s.editing).value;
             !AnyNegative(e.exercicio, e.calorias, e.agua)
    ensures var e := FindById(s.records, s.editing).value;
            var r := Submit(s, Prefill(Some(e)), now, today);
            && r.outcome == Updated
            && r.session.editing == None
            && e in r.session.records
            && (IdsUnique(s.records) ==> r.session.records == s.records)
  {
    var e := FindById(s.records, s.editing).value;
    var f := Prefill(Some(e));
    var i :| 0 <= i < |s.records| && s.records[i] == e;
    assert Submit(s, f, now, today) == Store(s, e.exercicio, e.calorias, e.agua, now, today);
    StoreSameValues(s, i, now, today);
  }

  /** Storing, in edit mode, the target entry's own values leaves that entry as it was. */
  lemma StoreSameValues(s: Session, i: int, now: int, today: string)
    requires Truthy(s.editing)
    requires 0 <= i < |s.records| && s.records[i].id == s.editing.value
    requires !AnyNegative(s.records[i].exercicio, s.records[i].calorias, s.records[i].agua)
    ensures var e := s.records[i];
            var r := Store(s, e.exercicio, e.calorias, e.agua, now, today);
            && r.outcome == Updated
            && r.session.editing == None
            && r.session.records[i] == e
            && (IdsUnique(s.records) ==> r.session.records == s.records)
  {
    var e := s.records[i];
    var r := Store(s, e.exercicio, e.calorias, e.agua, now, today);
    if IdsUnique(s.records) {
      forall j | 0 <= j < |s.records|
        ensures r.session.records[j] == s.records[j]
      {
        if s.records[j].id == s.editing.value {
          assert j == i;
        }
      }
    }
  }

  /**
    In create mode, the cleared form sends three empty fields; they parse to
    NaN, pass validation and are stored.
  */
  lemma FreshFormStoresNaN(s: Session, now: int, today: string)
    requires !Truthy(s.editing)
    ensures var r := Submit(s, Prefill(None), now, today);
            && r.outcome == Created
            && r.session.records == s.records + [Record(now, today, NaN, NaN, NaN)]
  {
    EmptyIsNaN();
    SubmitParsed(s, Prefill(None), Values(NaN, NaN, NaN), now, today);
  }


  /** Submitting fields that parse to `v` stores `v`. */
  lemma SubmitParsed(s: Session, f: Fields, v: Values, now: int, today: string)
    requires ParseInt(f.exercicio) == v.exercicio
    requires ParseInt(f.calorias) == v.calorias
    requires ParseInt(f.agua) == v.agua
    ensures Submit(s, f, now, today) == Store(s, v.exercicio, v.calorias, v.agua, now, today)
  {
  }

  /** The cancel button is shown exactly when the edit target names a stored entry. */
  lemma CancelOnlyWhileEditing(s: Session)
    ensures CancelOffered(FindById(s.records, s.editing)) <==> s.editing.Some? && HasId(s.records, s.editing.value)
    ensures s.editing.None? ==> !CancelOffered(FindById(s.records, s.editing))
  {
  }
}

=== FILE: jsnumbers.dfy ===
/**
  The two JavaScript number conversions the diary relies on: `parseInt(s, 10)`,
  which turns a form field into a number, and `String(x)`, which turns a stored
  number back into a form field.

  Numbers are modelled as unbounded integers plus NaN: the diary only ever
  produces values through `parseInt`, which yields an integral value or NaN.
*/
module JsNumbers {

  /** The value `parseInt` returns: an integer, or NaN when no digit was found. */
  datatype Parsed = Num(n: int) | NaN

  /** `x < 0` in JavaScript. Every comparison with NaN is false, so NaN is not negative. */
  predicate IsNegative(p: Parsed): (negative: bool)
    ensures p.NaN? ==> !negative
    ensures p.Num? ==> (negative <==> p.n < 0)
  {
    p.Num? && p.n < 0
  }

  /** The code points ECMAScript counts as WhiteSpace or LineTerminator; `parseInt` skips them. */
  predicate IsJsSpace(c: char) {
    var k := c as int;
    || k == 0x09 || k == 0x0A || k == 0x0B || k == 0x0C || k == 0x0D
    || k == 0x20 || k == 0xA0 || k == 0x1680
    || (0x2000 <= k <= 0x200A)
    || k == 0x2028 || k == 0x2029 || k == 0x202F || k == 0x205F
    || k == 0x3000 || k == 0xFEFF
  }

  /** A digit of radix 10. */
  predicate IsDigit(c: char) {
    '0' <= c <= '9'
  }

  predicate AllDigits(s: string) {
    forall i :: 0 <= i < |s| ==> IsDigit(s[i])
  }

  function DigitValue(c: char): nat
    requires IsDigit(c)
  {
    c as int - '0' as int
  }

  function DigitChar(d: nat): (c: char)
    requires d < 10
    ensures IsDigit(c) && DigitValue(c) == d
  {
    ('0' as int + d) as char
  }

  /** The value of a string of decimal digits, most significant first. */
  function DigitsValue(s: string): nat
    requires AllDigits(s)
  {
    if |s| == 0 then 0 else DigitsValue(s[..|s| - 1]) * 10 + DigitValue(s[|s| - 1])
  }

  /** Drops leading white space: the remainder is a suffix of `s` that does not start with a space. */
  function TrimStart(s: string): (t: string)
    ensures |t| <= |s| && t == s[|s| - |t|..]
    ensures forall i :: 0 <= i < |s| - |t| ==> IsJsSpace(s[i])
    ensures t == [] || !IsJsSpace(t[0])
  {
    if |s| > 0 && IsJsSpace(s[0]) then TrimStart(s[1..]) else s
  }

  /** The longest prefix of `s` made of digits. */
  function DigitPrefix(s: string): (d: string)
    ensures d <= s && AllDigits(d)
    ensures |d| == |s| || !IsDigit(s[|d|])
  {
    if |s| > 0 && IsDigit(s[0]) then [s[0]] + DigitPrefix(s[1..]) else []
  }

  /** `s` without one leading sign character. */
  function Unsigned(s: string): string {
    if |s| > 0 && (s[0] == '-' || s[0] == '+') then s[1..] else s
  }

  /**
    `parseInt(s, 10)`: skip leading white space, read an optional sign, then
    the longest run of digits; NaN when that run is empty. Whatever follows the
    digits is ignored.
  */
  function ParseInt(s: string): (r: Parsed)
    ensures var t := TrimStart(s);
            var digits := DigitPrefix(Unsigned(t));
            && (r.NaN? <==> digits == [])
            && (r.Num? ==> r.n == DigitsValue(digits) || r.n == 0 - DigitsValue(digits))
            && (IsNegative(r) ==> t[0] == '-')
            && (r.Num? && t[0] == '-' ==> r.n == 0 - DigitsValue(digits))
            && (r.Num? && t[0] != '-' ==> r.n == DigitsValue(digits))
  {
    AfterSpace(TrimStart(s))
  }

  /** `parseInt` on text that starts with something other than white space. */
  function AfterSpace(t: string): Parsed {
    var digits := DigitPrefix(Unsigned(t));
    if digits == [] then NaN
    else if t[0] == '-' then Num(0 - DigitsValue(digits))
    else Num(DigitsValue(digits))
  }

  /**
    `x - y` on the values `parseInt` produces: NaN when either operand is NaN,
    the difference otherwise.
  */
  function Minus(x: Parsed, y: Parsed): (d: Parsed)
    ensures d.Num? <==> x.Num? && y.Num?
    ensures d.Num? ==> d.n + y.n == x.n
  {
    if x.Num? && y.Num? then Num(x.n - y.n) else NaN
  }

  /** The canonical decimal text of a natural number: digits only, no leading zero. */
  function NatToDecimal(n: nat): (s: string)
    ensures |s| > 0 && AllDigits(s)
    ensures s[0] != '0' || s == "0"
    ensures DigitsValue(s) == n
  {
    if n < 10 then [DigitChar(n)]
    else
      var s := NatToDecimal(n / 10) + [DigitChar(n % 10)];
      assert s[..|s| - 1] == NatToDecimal(n / 10);
      s
  }

  /** `String(x)`: a minus sign and the digits for a negative number, "NaN" for NaN. */
  function Show(p: Parsed): (s: string)
    ensures p.NaN? ==> s == "NaN"
    ensures p.Num? && p.n >= 0 ==> |s| > 0 && AllDigits(s) && (s[0] != '0' || s == "0") && DigitsValue(s) == p.n
    ensures p.Num? && p.n < 0 ==> |s| > 1 && s[0] == '-' && AllDigits(s[1..]) && s[1] != '0' && DigitsValue(s[1..]) == -p.n
  {
    match p
    case NaN => "NaN"
    case Num(n) => if n < 0 then "-" + NatToDecimal(-n) else NatToDecimal(n)
  }

  lemma {:induction false} DigitPrefixOfDigits(d: string, rest: string)
    requires AllDigits(d)
    requires rest == [] || !IsDigit(rest[0])
    ensures DigitPrefix(d + rest) == d
    decreases |d|
  {
    if d == [] {
      assert d + rest == rest;
    } else {
      assert (d + rest)[1..] == d[1..] + rest;
      DigitPrefixOfDigits(d[1..], rest);
      assert d == [d[0]] + d[1..];
    }
  }

  lemma DigitIsNotSpace(c: char)
    requires IsDigit(c)
    ensures !IsJsSpace(c) && c != '-' && c != '+'
  {
  }

  /** `parseInt` on text that starts with neither a space nor a sign reads its digit prefix. */
  lemma ParseUnsigned(s: string)
    requires |s| > 0 && !IsJsSpace(s[0]) && s[0] != '-' && s[0] != '+'
    ensures ParseInt(s) == if DigitPrefix(s) == [] then NaN else Num(DigitsValue(DigitPrefix(s)))
  {
    assert TrimStart(s) == s;
  }

  /** `parseInt` on a minus sign followed by digits reads them as a negative number. */
  lemma ParseMinus(s: string)
    requires |s| > 1 && s[0] == '-' && AllDigits(s[1..])
    ensures ParseInt(s) == Num(0 - DigitsValue(s[1..]))
  {
    assert !IsJsSpace('-');
    assert TrimStart(s) == s;
    assert Unsigned(s) == s[1..];
    DigitPrefixOfDigits(s[1..], []);
    assert s[1..] + [] == s[1..];
  }

  /** Printing a number and parsing it back gives the number again, NaN included. */
  lemma ShowParseRoundTrip(p: Parsed)
    ensures ParseInt(Show(p)) == p
  {
    match p
    case NaN =>
      assert DigitPrefix("NaN") == [];
      ParseUnsigned("NaN");
    case Num(n) =>
      if n < 0 {
        NegativeRoundTrip(n);
      } else {
        NaturalRoundTrip(n);
      }
  }

  lemma NaturalRoundTrip(n: nat)
    ensures ParseInt(NatToDecimal(n)) == Num(n)
  {
    var d := NatToDecimal(n);
    DigitIsNotSpace(d[0]);
    DigitPrefixOfDigits(d, []);
    assert d + [] == d;
    ParseUnsigned(d);
  }

  lemma NegativeRoundTrip(n: int)
    requires n < 0
    ensures ParseInt("-" + NatToDecimal(-n)) == Num(n)
  {
    var s := "-" + NatToDecimal(-n);
    assert s[1..] == NatToDecimal(-n);
    ParseMinus(s);
  }

  /** Leading white space never changes what `parseInt` reads. */
  lemma ParseSkipsLeadingSpace(w: string, s: string)
    requires forall i :: 0 <= i < |w| ==> IsJsSpace(w[i])
    ensures ParseInt(w + s) == ParseInt(s)
  {
    TrimSkipsSpace(w, s);
  }

  lemma {:induction false} TrimSkipsSpace(w: string, s: string)
    requires forall i :: 0 <= i < |w| ==> IsJsSpace(w[i])
    ensures TrimStart(w + s) == TrimStart(s)
    decreases |w|
  {
    if w != [] {
      assert (w + s)[0] == w[0];
      assert (w + s)[1..] == w[1..] + s;
      TrimSkipsSpace(w[1..], s);
    } else {
      assert w + s == s;
    }
  }

  /** Text after the digits is ignored: `parseInt("12abc", 10)` is 12. */
  lemma ParseIgnoresSuffix(d: string, rest: string)
    requires |d| > 0 && AllDigits(d)
    requires rest == [] || !IsDigit(rest[0])
    ensures ParseInt(d + rest) == Num(DigitsValue(d))
  {
    DigitPrefixOfDigits(d, rest);
    assert (d + rest)[0] == d[0];
    DigitIsNotSpace(d[0]);
    ParseUnsigned(d + rest);
  }

  /**
    Blank text, the empty string included, and text whose first non-space
    character is neither a sign nor a digit both parse to NaN.
  */
  lemma NonNumericIsNaN(s: string)
    requires var t := TrimStart(s); t == [] || (t[0] != '-' && t[0] != '+' && !IsDigit(t[0]))
    ensures ParseInt(s) == NaN
  {
  }

  /** An empty field parses to NaN. */
  lemma EmptyIsNaN()
    ensures ParseInt("") == NaN
  {
    assert TrimStart("") == "";
    assert Unsigned("") == "";
    assert DigitPrefix("") == [];
  }

  /**
    `parseInt` yields a negative number exactly when, after the white space,
    a minus sign is followed by digits whose value is not zero ("-0" is not negative).
  */
  lemma NegativeIffMinusDigits(s: string)
    ensures IsNegative(ParseInt(s)) <==>
      var t := TrimStart(s);
      var d := DigitPrefix(Unsigned(t));
      d != [] && t[0] == '-' && DigitsValue(d) > 0
  {
  }
}

=== FILE: lifecycle.dfy ===
/**
  The four handlers of the diary's main screen, each a pure transition of the
  session: the stored entries and the id of the entry being edited.

  The clock reading (`new Date().getTime()`) and the locale date text
  (`toLocaleDateString('pt-BR')`) are parameters of `Save`.
*/
module Lifecycle {
  import opened JsNumbers
  import opened Records

  /** The entries in stored order and the edit target (`editingId`, null as `None`). */
  datatype Session = Session(records: seq<Record>, editing: Option<int>)

  /** Which alert a save raises: the validation error, "updated" or "saved". */
  datatype Outcome = Rejected | Updated | Created

  datatype SaveResult = SaveResult(session: Session, outcome: Outcome)

  /** `if (editingId)`: null and the id 0 are both falsy, so only a non-zero id means edit mode. */
  predicate Truthy(editing: Option<int>): (t: bool)
    ensures editing.None? ==> !t
    ensures editing == Some(0) ==> !t
    ensures editing.Some? && editing.value != 0 ==> t
  {
    editing.Some? && editing.value != 0
  }

  /** The validation test: some parsed value is a number below zero (NaN never is). */
  predicate AnyNegative(exercicio: Parsed, calorias: Parsed, agua: Parsed): (negative: bool)
    ensures !negative <==> forall p | p in [exercicio, calorias, agua] :: p.NaN? || p.n >= 0
  {
    IsNegative(agua) || IsNegative(exercicio) || IsNegative(calorias)
  }

  /** `registros.map(reg => reg.id === id ? {...reg, <three values>} : reg)`. */
  function Rewrite(records: seq<Record>, id: int, exercicio: Parsed, calorias: Parsed, agua: Parsed): (r: seq<Record>)
    ensures |r| == |records|
    ensures forall i :: 0 <= i < |r| ==> r[i].id == records[i].id && r[i].data == records[i].data
    ensures forall i :: 0 <= i < |r| && records[i].id != id ==> r[i] == records[i]
    ensures forall i :: 0 <= i < |r| && records[i].id == id ==>
              r[i].exercicio == exercicio && r[i].calorias == calorias && r[i].agua == agua
  {
    if records == [] then []
    else
      var head := if records[0].id == id
        then records[0].(exercicio := exercicio, calorias := calorias, agua := agua)
        else records[0];
      var rest := Rewrite(records[1..], id, exercicio, calorias, agua);
      var r := [head] + rest;
      assert forall i :: 1 <= i < |r| ==> r[i] == rest[i - 1] && records[i] == records[1..][i - 1];
      r
  }

  /**
    `handleSave(exercicio, calorias, agua)`: all three inputs are parsed, then
    stored as `Store` says.
  */
  function Save(s: Session, exercicio: string, calorias: string, agua: string, now: int, today: string): (r: SaveResult)
    ensures var e, c, a := ParseInt(exercicio), ParseInt(calorias), ParseInt(agua);
      && (r.outcome == Rejected <==> AnyNegative(e, c, a))
      && (r.outcome == Rejected ==> r.session == s)
      && (r.outcome != Rejected ==> r.session.editing == None)
      && (r.outcome == Updated <==> !AnyNegative(e, c, a) && Truthy(s.editing))
      && (r.outcome == Updated ==>
            && |r.session.records| == |s.records|
            && (forall i :: 0 <= i < |s.records| ==>
                  r.session.records[i].id == s.records[i].id && r.session.records[i].data == s.records[i].data)
            && (forall i :: 0 <= i < |s.records| ==>
                  if s.records[i].id == s.editing.value
                  then r.session.records[i] == Record(s.records[i].id, s.records[i].data, e, c, a)
                  else r.session.records[i] == s.records[i]))
      && (r.outcome == Created ==> r.session.records == s.records + [Record(now, today, e, c, a)])
  {
    Store(s, ParseInt(exercicio), ParseInt(calorias), ParseInt(agua), now, today)
  }

  /**
    The rest of `handleSave`, on the parsed values: if any is a negative
    number nothing changes. Otherwise edit mode rewrites the entries carrying
    the target id and create mode appends a new entry stamped `now`; both then
    clear the target.
  */
  function Store(s: Session, e: Parsed, c: Parsed, a: Parsed, now: int, today: string): (r: SaveResult)
    ensures r.outcome == Rejected <==> AnyNegative(e, c, a)
    ensures r.outcome == Rejected ==> r.session == s
    ensures r.outcome != Rejected ==> r.session.editing == None
    ensures r.outcome == Updated <==> !AnyNegative(e, c, a) && Truthy(s.editing)
    ensures r.outcome == Updated ==>
              && |r.session.records| == |s.records|
              && (forall i :: 0 <= i < |s.records| ==>
                    r.session.records[i].id == s.records[i].id && r.session.records[i].data == s.records[i].data)
              && (forall i :: 0 <= i < |s.records| ==>
                    if s.records[i].id == s.editing.value
                    then r.session.records[i] == Record(s.records[i].id, s.records[i].data, e, c, a)
                    else r.session.records[i] == s.records[i])
    ensures r.outcome == Created ==> r.session.records == s.records + [Record(now, today, e, c, a)]
  {
    if AnyNegative(e, c, a) then SaveResult(s, Rejected)
    else if Truthy(s.editing) then
      SaveResult(Session(Rewrite(s.records, s.editing.value, e, c, a), None), Updated)
    else
      SaveResult(Session(s.records + [Record(now, today, e, c, a)], None), Created)
  }

  /** `registros.filter((reg) => reg.id !== id)`. */
  function Delete(records: seq<Record>, id: int): (r: seq<Record>)
    ensures |r| <= |records|
    ensures forall x :: x in r <==> x in records && x.id != id
  {
    if records == [] then []
    else
      assert records == [records[0]] + records[1..];
      if records[0].id == id then Delete(records[1..], id)
      else [records[0]] + Delete(records[1..], id)
  }

  /** The filter keeps every other entry exactly as many times as it was stored. */
  lemma {:induction false} DeleteCounts(records: seq<Record>, id: int, x: Record)
    ensures multiset(Delete(records, id))[x] == if x.id == id then 0 else multiset(records)[x]
    decreases |records|
  {
    if records != [] {
      var rest := records[1..];
      DeleteCounts(rest, id, x);
      assert records == [records[0]] + rest;
      assert multiset(records) == multiset([records[0]]) + multiset(rest);
      if records[0].id != id {
        assert multiset(Delete(records, id)) == multiset([records[0]]) + multiset(Delete(rest, id));
      }
    }
  }

  /** `handleDelete(id)`: only the entries change; an edit target survives even if its entry is gone. */
  function HandleDelete(s: Session, id: int): (r: Session)
    ensures r.editing == s.editing
    ensures r.records == Delete(s.records, id)
    ensures !HasId(r.records, id)
    ensures forall x :: x in r.records <==> x in s.records && x.id != id
  {
    Session(Delete(s.records, id), s.editing)
  }

  /** `handleEdit(registro)`: targets the entry's id; the entries are untouched. */
  function BeginEdit(s: Session, registro: Record): (r: Session)
    ensures r.records == s.records
    ensures r.editing.Some? && r.editing.value == registro.id
  {
    Session(s.records, Some(registro.id))
  }

  /** `handleCancel()`: back to create mode; the entries are untouched. */
  function Cancel(s: Session): (r: Session)
    ensures r.records == s.records && r.editing.None?
  {
    Session(s.records, None)
  }

  /** Deleting distributes over concatenation, so it keeps the order of what remains. */
  lemma {:induction false} DeleteAppend(a: seq<Record>, b: seq<Record>, id: int)
    ensures Delete(a + b, id) == Delete(a, id) + Delete(b, id)
    decreases |a|
  {
    if a == [] {
      assert a + b == b;
    } else {
      assert (a + b)[1..] == a[1..] + b;
      DeleteAppend(a[1..], b, id);
    }
  }

  /** Deleting an id no entry carries returns the entries unchanged. */
  lemma {:induction false} DeleteAbsent(records: seq<Record>, id: int)
    requires !HasId(records, id)
    ensures Delete(records, id) == records
    decreases |records|
  {
    if records != [] {
      forall i | 0 <= i < |records[1..]|
        ensures records[1..][i].id != id
      {
        assert records[1..][i] == records[i + 1];
      }
      DeleteAbsent(records[1..], id);
      assert records == [records[0]] + records[1..];
    }
  }

  /** Deleting twice is deleting once. */
  lemma DeleteIdempotent(records: seq<Record>, id: int)
    ensures Delete(Delete(records, id), id) == Delete(records, id)
  {
    var r := Delete(records, id);
    forall i | 0 <= i < |r|
      ensures r[i].id != id
    {
      assert r[i] in r;
    }
    DeleteAbsent(r, id);
  }

  /** Every handler keeps the stored measurements free of negative numbers. */
  lemma StoreKeepsNoNegatives(s: Session, e: Parsed, c: Parsed, a: Parsed, now: int, today: string)
    requires NoNegatives(s.records)
    ensures NoNegatives(Store(s, e, c, a, now, today).session.records)
  {
  }

  /** A create-mode save stamped later than every entry keeps the ids increasing. */
  lemma StoreKeepsIdsIncreasing(s: Session, e: Parsed, c: Parsed, a: Parsed, now: int, today: string)
    requires IdsIncreasing(s.records)
    requires forall i :: 0 <= i < |s.records| ==> s.records[i].id < now
    ensures IdsIncreasing(Store(s, e, c, a, now, today).session.records)
  {
  }

  /** Deleting keeps whatever order the ids had. */
  lemma {:induction false} DeleteKeepsIdsIncreasing(records: seq<Record>, id: int)
    requires IdsIncreasing(records)
    ensures IdsIncreasing(Delete(records, id))
    decreases |records|
  {
    if records != [] {
      var tail := records[1..];
      assert IdsIncreasing(tail) by {
        forall i, j | 0 <= i < j < |tail|
          ensures tail[i].id < tail[j].id
        {
          assert tail[i] == records[i + 1] && tail[j] == records[j + 1];
        }
      }
      DeleteKeepsIdsIncreasing(tail, id);
      if records[0].id != id {
        forall k | 0 <= k < |tail|
          ensures records[0].id < tail[k].id
        {
          assert tail[k] == records[k + 1];
        }
        DeleteKeepsBound(tail, id, records[0].id);
      }
    }
  }

  /** Deleting keeps every id above a bound that all ids were above. */
  lemma {:induction false} DeleteKeepsBound(records: seq<Record>, id: int, bound: int)
    requires forall k :: 0 <= k < |records| ==> bound < records[k].id
    ensures forall k :: 0 <= k < |Delete(records, id)| ==> bound < Delete(records, id)[k].id
    decreases |records|
  {
    if records != [] {
      var tail := records[1..];
      forall k | 0 <= k < |tail|
        ensures bound < tail[k].id
      {
        assert tail[k] == records[k + 1];
      }
      DeleteKeepsBound(tail, id, bound);
    }
  }
}

=== FILE: ordering.dfy ===
/**
  The list ordering: a copy of the entries sorted with the comparator
  `(a, b) => b.agua - a.agua` in mode 'maior_agua' and `(a, b) => b.id - a.id`
  otherwise, by JavaScript's stable `Array.prototype.sort`.

  A comparator result of NaN counts as 0, so an entry whose water is NaN
  compares equal to every other; the comparator is then inconsistent and
  ECMAScript leaves the order implementation-defined. The model fixes one such
  order (a stable insertion sort) and promises sortedness only when every key
  is a number; the permutation and the stability hold in every case.
*/
module Ordering {
  import opened JsNumbers
  import opened Records

  /**
    The list mode `ordenacao`. It starts as 'recentes' and the two buttons set
    'recentes' or 'maior_agua', so these are the only values it takes.
  */
  datatype Ordenacao = Recentes | MaiorAgua

  /** The sort key of an entry: its water in mode 'maior_agua', its id otherwise. */
  function Key(ordenacao: Ordenacao, r: Record): (k: Parsed)
    ensures ordenacao == MaiorAgua ==> k == r.agua
    ensures ordenacao == Recentes ==> k == Num(r.id)
  {
    if ordenacao == MaiorAgua then r.agua else Num(r.id)
  }

  /**
    The comparators `(a, b) => b.agua - a.agua` and `(a, b) => b.id - a.id`
    return a negative number: the entry keyed `x` strictly belongs before the
    one keyed `y`. A NaN result is not negative, so it never moves an entry.
  */
  predicate Above(x: Parsed, y: Parsed): (before: bool)
    ensures before <==> IsNegative(Minus(y, x))
  {
    x.Num? && y.Num? && x.n > y.n
  }

  /** No later entry belongs strictly before an earlier one. */
  predicate Sorted(ordenacao: Ordenacao, s: seq<Record>) {
    forall i, j :: 0 <= i < j < |s| ==> !Above(Key(ordenacao, s[j]), Key(ordenacao, s[i]))
  }

  predicate KeysNumeric(ordenacao: Ordenacao, s: seq<Record>) {
    forall i :: 0 <= i < |s| ==> Key(ordenacao, s[i]).Num?
  }

  /** The entries whose key is `v`, in their order in `s`. */
  function WithKey(ordenacao: Ordenacao, s: seq<Record>, v: Parsed): seq<Record> {
    if s == [] then []
    else (if Key(ordenacao, s[0]) == v then [s[0]] else []) + WithKey(ordenacao, s[1..], v)
  }

  /** Places `x` after the leading entries that belong strictly before it, and before the rest. */
  function Insert(ordenacao: Ordenacao, x: Record, t: seq<Record>): (r: seq<Record>)
    ensures |r| == |t| + 1
  {
    if t == [] || !Above(Key(ordenacao, t[0]), Key(ordenacao, x)) then [x] + t
    else [t[0]] + Insert(ordenacao, x, t[1..])
  }

  /** Stable insertion sort: the head of `s` goes in front of every later entry with an equal key. */
  function SortBy(ordenacao: Ordenacao, s: seq<Record>): (r: seq<Record>)
    ensures |r| == |s|
  {
    if s == [] then []
    else Insert(ordenacao, s[0], SortBy(ordenacao, s[1..]))
  }

  /** Inserting adds exactly the one entry. */
  lemma {:induction false} InsertPermutes(ordenacao: Ordenacao, x: Record, t: seq<Record>)
    ensures multiset(Insert(ordenacao, x, t)) == multiset(t) + multiset{x}
    decreases |t|
  {
    if t != [] && Above(Key(ordenacao, t[0]), Key(ordenacao, x)) {
      InsertPermutes(ordenacao, x, t[1..]);
      assert t == [t[0]] + t[1..];
    }
  }

  /** The sort returns a permutation of its input. */
  lemma {:induction false} SortByPermutes(ordenacao: Ordenacao, s: seq<Record>)
    ensures multiset(SortBy(ordenacao, s)) == multiset(s)
    decreases |s|
  {
    if s != [] {
      SortByPermutes(ordenacao, s[1..]);
      InsertPermutes(ordenacao, s[0], SortBy(ordenacao, s[1..]));
      assert s == [s[0]] + s[1..];
    }
  }

  /**
    `let registrosOrdenados = [...registros]; registrosOrdenados.sort(...)`:
    the input sequence itself is a value and stays as it was.
  */
  function OrderedView(records: seq<Record>, ordenacao: Ordenacao): (r: seq<Record>)
    ensures multiset(r) == multiset(records) && |r| == |records|
    ensures KeysNumeric(ordenacao, records) ==> Sorted(ordenacao, r)
    ensures ordenacao == Recentes ==> forall i, j :: 0 <= i < j < |r| ==> r[i].id >= r[j].id
    ensures ordenacao == MaiorAgua && KeysNumeric(ordenacao, records) ==>
              forall i, j :: 0 <= i < j < |r| ==> r[i].agua.Num? && r[j].agua.Num? && r[i].agua.n >= r[j].agua.n
    ensures forall v :: WithKey(ordenacao, r, v) == WithKey(ordenacao, records, v)
  {
    var r := SortBy(ordenacao, records);
    SortByPermutes(ordenacao, records);
    SortByOrders(ordenacao, records);
    if KeysNumeric(ordenacao, records) then
      KeysNumericByMultiset(ordenacao, records, r);
      r
    else r
  }

  /** What `OrderedView` promises of the insertion sort, for every input. */
  lemma SortByOrders(ordenacao: Ordenacao, s: seq<Record>)
    ensures KeysNumeric(ordenacao, s) || ordenacao == Recentes ==> Sorted(ordenacao, SortBy(ordenacao, s))
    ensures forall v :: WithKey(ordenacao, SortBy(ordenacao, s), v) == WithKey(ordenacao, s, v)
  {
    if KeysNumeric(ordenacao, s) || ordenacao == Recentes {
      SortBySorted(ordenacao, s);
    }
    forall v
      ensures WithKey(ordenacao, SortBy(ordenacao, s), v) == WithKey(ordenacao, s, v)
    {
      SortByStable(ordenacao, s, v);
    }
  }

  lemma KeysNumericByMultiset(ordenacao: Ordenacao, a: seq<Record>, b: seq<Record>)
    requires KeysNumeric(ordenacao, a)
    requires multiset(a) == multiset(b)
    ensures KeysNumeric(ordenacao, b)
  {
    forall i | 0 <= i < |b|
      ensures Key(ordenacao, b[i]).Num?
    {
      assert b[i] in multiset(a);
      var j :| 0 <= j < |a| && a[j] == b[i];
    }
  }

  /** Inserting into a sorted sequence of numeric keys keeps it sorted. */
  lemma {:induction false} InsertSorted(ordenacao: Ordenacao, x: Record, t: seq<Record>)
    requires Key(ordenacao, x).Num? && KeysNumeric(ordenacao, t)
    requires Sorted(ordenacao, t)
    ensures Sorted(ordenacao, Insert(ordenacao, x, t))
    ensures KeysNumeric(ordenacao, Insert(ordenacao, x, t))
    decreases |t|
  {
    var r := Insert(ordenacao, x, t);
    if t == [] || !Above(Key(ordenacao, t[0]), Key(ordenacao, x)) {
      forall j | 1 <= j < |r|
        ensures !Above(Key(ordenacao, r[j]), Key(ordenacao, r[0]))
      {
        assert r[j] == t[j - 1];
      }
    } else {
      var tail := t[1..];
      var rest := Insert(ordenacao, x, tail);
      InsertSorted(ordenacao, x, tail);
      forall k | 0 <= k < |tail|
        ensures !Above(Key(ordenacao, tail[k]), Key(ordenacao, t[0]))
      {
        assert tail[k] == t[k + 1];
      }
      InsertBelow(ordenacao, x, tail, t[0]);
      assert r == [t[0]] + rest;
      forall i, j | 0 <= i < j < |r|
        ensures !Above(Key(ordenacao, r[j]), Key(ordenacao, r[i]))
      {
        assert r[j] == rest[j - 1];
        if i > 0 {
          assert r[i] == rest[i - 1];
        }
      }
    }
  }

  /** Inserting an entry that does not belong before `y` into entries that do not either keeps that so. */
  lemma {:induction false} InsertBelow(ordenacao: Ordenacao, x: Record, t: seq<Record>, y: Record)
    requires !Above(Key(ordenacao, x), Key(ordenacao, y))
    requires forall k :: 0 <= k < |t| ==> !Above(Key(ordenacao, t[k]), Key(ordenacao, y))
    ensures forall k :: 0 <= k < |Insert(ordenacao, x, t)| ==> !Above(Key(ordenacao, Insert(ordenacao, x, t)[k]), Key(ordenacao, y))
    decreases |t|
  {
    var r := Insert(ordenacao, x, t);
    if t == [] || !Above(Key(ordenacao, t[0]), Key(ordenacao, x)) {
      assert forall k :: 1 <= k < |r| ==> r[k] == t[k - 1];
    } else {
      var tail := t[1..];
      forall k | 0 <= k < |tail|
        ensures !Above(Key(ordenacao, tail[k]), Key(ordenacao, y))
      {
        assert tail[k] == t[k + 1];
      }
      InsertBelow(ordenacao, x, tail, y);
      assert forall k :: 1 <= k < |r| ==> r[k] == Insert(ordenacao, x, tail)[k - 1];
    }
  }

  lemma {:induction false} SortBySorted(ordenacao: Ordenacao, s: seq<Record>)
    requires KeysNumeric(ordenacao, s) || ordenacao == Recentes
    ensures Sorted(ordenacao, SortBy(ordenacao, s))
    ensures KeysNumeric(ordenacao, SortBy(ordenacao, s))
    decreases |s|
  {
    if s != [] {
      SortBySorted(ordenacao, s[1..]);
      InsertSorted(ordenacao, s[0], SortBy(ordenacao, s[1..]));
    }
  }

  /** Putting `x` in front adds it to the front of its key's entries. */
  lemma WithKeyCons(ordenacao: Ordenacao, x: Record, t: seq<Record>, v: Parsed)
    ensures WithKey(ordenacao, [x] + t, v) == (if Key(ordenacao, x) == v then [x] else []) + WithKey(ordenacao, t, v)
  {
    assert ([x] + t)[0] == x;
    assert ([x] + t)[1..] == t;
  }

  /** Of the entries with `x`'s key, `x` lands first; entries with other keys keep their order. */
  lemma {:induction false} InsertStable(ordenacao: Ordenacao, x: Record, t: seq<Record>, v: Parsed)
    ensures WithKey(ordenacao, Insert(ordenacao, x, t), v)
         == (if Key(ordenacao, x) == v then [x] else []) + WithKey(ordenacao, t, v)
    decreases |t|
  {
    if t == [] || !Above(Key(ordenacao, t[0]), Key(ordenacao, x)) {
      WithKeyCons(ordenacao, x, t, v);
    } else {
      InsertStable(ordenacao, x, t[1..], v);
      WithKeyCons(ordenacao, t[0], Insert(ordenacao, x, t[1..]), v);
      assert t == [t[0]] + t[1..];
      WithKeyCons(ordenacao, t[0], t[1..], v);
    }
  }

  lemma {:induction false} SortByStable(ordenacao: Ordenacao, s: seq<Record>, v: Parsed)
    ensures WithKey(ordenacao, SortBy(ordenacao, s), v) == WithKey(ordenacao, s, v)
    decreases |s|
  {
    if s != [] {
      SortByStable(ordenacao, s[1..], v);
      InsertStable(ordenacao, s[0], SortBy(ordenacao, s[1..]), v);
    }
  }

  /** Inserting an entry below every entry of `t` appends it. */
  lemma {:induction false} InsertLast(ordenacao: Ordenacao, x: Record, t: seq<Record>)
    requires forall i :: 0 <= i < |t| ==> Above(Key(ordenacao, t[i]), Key(ordenacao, x))
    ensures Insert(ordenacao, x, t) == t + [x]
    decreases |t|
  {
    if t != [] {
      InsertLast(ordenacao, x, t[1..]);
      assert t == [t[0]] + t[1..];
    }
  }

  /**
    When every entry was appended later than the ones before it, the
    'recentes' order is exactly the stored order reversed.
  */
  lemma {:induction false} RecentIsReversedStorage(records: seq<Record>, ordenacao: Ordenacao)
    requires ordenacao == Recentes
    requires IdsIncreasing(records)
    ensures OrderedView(records, ordenacao) == Reverse(records)
    decreases |records|
  {
    if records != [] {
      RecentIsReversedStorage(records[1..], ordenacao);
      var t := Reverse(records[1..]);
      forall i | 0 <= i < |t|
        ensures Above(Key(ordenacao, t[i]), Key(ordenacao, records[0]))
      {
        assert t[i] == records[1..][|records| - 2 - i];
      }
      InsertLast(ordenacao, records[0], t);
    }
  }
}

=== FILE: records.dfy ===
/**
  The diary's entries and the lookup by id that the form uses to find the
  entry being edited.
*/
module Records {
  import opened JsNumbers

  datatype Option<T> = None | Some(value: T)

  /**
    One day's entry. `id` is the creation timestamp in milliseconds, `data`
    the date text written at creation; the three measurements are whatever
    `parseInt` produced, so NaN can be stored.
  */
  datatype Record = Record(id: int, data: string, exercicio: Parsed, calorias: Parsed, agua: Parsed)

  /** Some entry of `records` carries `id`. */
  predicate HasId(records: seq<Record>, id: int) {
    exists i :: 0 <= i < |records| && records[i].id == id
  }

  /**
    `records.find((r) => r.id === editingId) || null`: the first entry whose
    id is the edit target, and nothing when there is no target (no id equals
    null) or no entry carries it.
  */
  function FindById(records: seq<Record>, editing: Option<int>): (r: Option<Record>)
    ensures r.Some? <==> editing.Some? && HasId(records, editing.value)
    ensures r.Some? ==> r.value.id == editing.value && r.value in records
    ensures r.Some? ==> exists i :: 0 <= i < |records| && records[i] == r.value &&
                          forall j :: 0 <= j < i ==> records[j].id != editing.value
  {
    if editing.None? || records == [] then None
    else if records[0].id == editing.value then Some(records[0])
    else
      var r := FindById(records[1..], editing);
      assert r.Some? ==> exists i :: 1 <= i < |records| && records[i] == r.value &&
                           forall j :: 0 <= j < i ==> records[j].id != editing.value by {
        if r.Some? {
          var i :| 0 <= i < |records[1..]| && records[1..][i] == r.value
            && forall j :: 0 <= j < i ==> records[1..][j].id != editing.value;
          assert records[i + 1] == r.value;
        }
      }
      assert HasId(records, editing.value) ==> HasId(records[1..], editing.value) by {
        if HasId(records, editing.value) {
          var i :| 0 <= i < |records| && records[i].id == editing.value;
          assert records[1..][i - 1].id == editing.value;
        }
      }
      r
  }

  /** Ids grow strictly along the stored order, as they do when every entry is appended at a later time. */
  predicate IdsIncreasing(records: seq<Record>) {
    forall i, j :: 0 <= i < j < |records| ==> records[i].id < records[j].id
  }

  /** No two entries carry the same id. */
  predicate IdsUnique(records: seq<Record>) {
    forall i, j :: 0 <= i < j < |records| ==> records[i].id != records[j].id
  }

  /** No stored measurement is a negative number. */
  predicate NoNegatives(records: seq<Record>) {
    forall i :: 0 <= i < |records| ==>
      !IsNegative(records[i].exercicio) && !IsNegative(records[i].calorias) && !IsNegative(records[i].agua)
  }

  /** Ids that increase are unique. */
  lemma IncreasingIsUnique(records: seq<Record>)
    requires IdsIncreasing(records)
    ensures IdsUnique(records)
  {
  }

  /** With ids that are unique, the lookup returns the one entry that carries the id. */
  lemma FindUniqueId(records: seq<Record>, i: int)
    requires IdsUnique(records)
    requires 0 <= i < |records|
    ensures FindById(records, Some(records[i].id)) == Some(records[i])
  {
  }

  /** The sequence in the opposite order, as `Array.prototype.reverse` leaves it. */
  function Reverse<T>(s: seq<T>): (r: seq<T>)
    ensures |r| == |s|
    ensures forall i :: 0 <= i < |s| ==> r[i] == s[|s| - 1 - i]
  {
    if s == [] then [] else Reverse(s[1..]) + [s[0]]
  }

  /** Reversing twice gives the sequence back. */
  lemma ReverseReverse<T>(s: seq<T>)
    ensures Reverse(Reverse(s)) == s
  {
  }
}

=== FILE: walks.dfy ===
/**
  Walks through the diary, each a short sequence of user actions, and the
  run that shows what happens when the entry being edited is deleted.
*/
module Walks {
  import opened JsNumbers
  import opened Records
  import opened Lifecycle
  import Ordering
  import Chart
  import opened Form
  import opened App

  lemma StoreCreates(s: Session, e: Parsed, c: Parsed, a: Parsed, now: int, today: string)
    requires !Truthy(s.editing)
    requires !AnyNegative(e, c, a)
    ensures Store(s, e, c, a, now, today) == SaveResult(Session(s.records + [Record(now, today, e, c, a)], None), Created)
  {
  }

  lemma StoreRejects(s: Session, e: Parsed, c: Parsed, a: Parsed, now: int, today: string)
    requires AnyNegative(e, c, a)
    ensures Store(s, e, c, a, now, today) == SaveResult(s, Rejected)
  {
  }

  lemma StoreUpdatesSingle(entry: Record, e: Parsed, c: Parsed, a: Parsed, now: int, today: string)
    requires entry.id != 0
    requires !AnyNegative(e, c, a)
    ensures Store(Session([entry], Some(entry.id)), e, c, a, now, today)
         == SaveResult(Session([entry.(exercicio := e, calorias := c, agua := a)], None), Updated)
  {
    var r := Store(Session([entry], Some(entry.id)), e, c, a, now, today);
    assert r.session.records[0] == entry.(exercicio := e, calorias := c, agua := a);
  }

  lemma StoreUpdatesNothing(id: int, e: Parsed, c: Parsed, a: Parsed, now: int, today: string)
    requires id != 0
    requires !AnyNegative(e, c, a)
    ensures Store(Session([], Some(id)), e, c, a, now, today) == SaveResult(Session([], None), Updated)
  {
  }

  /**
    Save, a rejected save, edit, save again, delete, with the numbers typed
    into the form: the entry is created, survives a save with a negative
    value, is updated in place with its id and date kept, and is finally
    removed.
  */
  lemma SaveEditDeleteWalk(first: Values, bad: Values, second: Values,
                           now: int, today: string, later: int, laterToday: string)
    requires now != 0
    requires !AnyNegative(first.exercicio, first.calorias, first.agua)
    requires AnyNegative(bad.exercicio, bad.calorias, bad.agua)
    requires !AnyNegative(second.exercicio, second.calorias, second.agua)
    ensures var entry := Record(now, today, first.exercicio, first.calorias, first.agua);
            var r1 := Submit(Session([], None), Typed(first), now, today);
            var r2 := Submit(r1.session, Typed(bad), later, laterToday);
            var r4 := Submit(BeginEdit(r2.session, entry), Typed(second), later, laterToday);
            var updated := Record(now, today, second.exercicio, second.calorias, second.agua);
            && r1 == SaveResult(Session([entry], None), Created)
            && r2 == SaveResult(Session([entry], None), Rejected)
            && r4 == SaveResult(Session([updated], None), Updated)
            && HandleDelete(r4.session, now) == Session([], None)
  {
    var entry := Record(now, today, first.exercicio, first.calorias, first.agua);
    var updated := Record(now, today, second.exercicio, second.calorias, second.agua);
    StoreCreatesFirst(first.exercicio, first.calorias, first.agua, now, today);
    StoreRejects(Session([entry], None), bad.exercicio, bad.calorias, bad.agua, later, laterToday);
    StoreUpdatesSingle(entry, second.exercicio, second.calorias, second.agua, later, laterToday);
    DeleteOnly(updated);
  }

  lemma StoreCreatesFirst(e: Parsed, c: Parsed, a: Parsed, now: int, today: string)
    requires !AnyNegative(e, c, a)
    ensures Store(Session([], None), e, c, a, now, today) == SaveResult(Session([Record(now, today, e, c, a)], None), Created)
  {
    StoreCreates(Session([], None), e, c, a, now, today);
    assert [] + [Record(now, today, e, c, a)] == [Record(now, today, e, c, a)];
  }

  lemma DeleteOnly(x: Record)
    ensures HandleDelete(Session([x], None), x.id) == Session([], None)
  {
    assert [x][1..] == [];
  }

  /** Three entries stored in id order whose water is low, high, middle. */
  predicate LowHighMiddle(a: Record, b: Record, c: Record) {
    && a.id < b.id < c.id
    && a.agua.Num? && b.agua.Num? && c.agua.Num?
    && b.agua.n > c.agua.n > a.agua.n
  }

  /** 'maior_agua' lists the high, middle, low entries. */
  lemma MostWaterWalk(a: Record, b: Record, c: Record)
    requires LowHighMiddle(a, b, c)
    ensures Ordering.OrderedView([a, b, c], Ordering.MaiorAgua) == [b, c, a]
  {
    var mode := Ordering.MaiorAgua;
    assert Ordering.Key(mode, a) == a.agua && Ordering.Key(mode, b) == b.agua && Ordering.Key(mode, c) == c.agua;
    SortThree(mode, a, b, c);
  }

  /** In a mode whose keys are the water values, low, high, middle sorts to high, middle, low. */
  lemma SortThree(mode: Ordering.Ordenacao, a: Record, b: Record, c: Record)
    requires LowHighMiddle(a, b, c)
    requires Ordering.Key(mode, a) == a.agua && Ordering.Key(mode, b) == b.agua && Ordering.Key(mode, c) == c.agua
    ensures Ordering.SortBy(mode, [a, b, c]) == [b, c, a]
  {
    SortTwo(mode, b, c);
    SortCons(mode, a, [b, c]);
    assert [a] + [b, c] == [a, b, c];
    Ordering.InsertLast(mode, a, [b, c]);
  }

  lemma SortCons(mode: Ordering.Ordenacao, x: Record, t: seq<Record>)
    ensures Ordering.SortBy(mode, [x] + t) == Ordering.Insert(mode, x, Ordering.SortBy(mode, t))
  {
    assert ([x] + t)[0] == x && ([x] + t)[1..] == t;
  }

  /** Two entries already in order stay as they are. */
  lemma SortTwo(mode: Ordering.Ordenacao, b: Record, c: Record)
    requires !Ordering.Above(Ordering.Key(mode, c), Ordering.Key(mode, b))
    ensures Ordering.SortBy(mode, [b, c]) == [b, c]
  {
    assert [b, c][1..] == [c] && [c][1..] == [];
    assert Ordering.SortBy(mode, [c]) == [c];
    assert Ordering.Insert(mode, b, [c]) == [b, c];
  }

  /** The same three entries: 'recentes' lists the newest first. */
  lemma RecentWalk(a: Record, b: Record, c: Record)
    requires LowHighMiddle(a, b, c)
    ensures Ordering.OrderedView([a, b, c], Ordering.Recentes) == [c, b, a]
  {
    ThreeIdsIncreasing(a, b, c);
    ReverseThree(a, b, c);
    Ordering.RecentIsReversedStorage([a, b, c], Ordering.Recentes);
  }

  lemma ThreeIdsIncreasing(a: Record, b: Record, c: Record)
    requires a.id < b.id < c.id
    ensures IdsIncreasing([a, b, c])
  {
  }

  lemma ReverseThree<T>(a: T, b: T, c: T)
    ensures Reverse([a, b, c]) == [c, b, a]
  {
    var r := Reverse([a, b, c]);
    assert r[0] == c && r[1] == b && r[2] == a;
  }

  /** The same three entries: the chart shows middle, high, low, whatever the list mode. */
  lemma ChartWalk(a: Record, b: Record, c: Record, dayMonth: int -> string)
    requires LowHighMiddle(a, b, c)
    ensures Chart.Derive([a, b, c], dayMonth).data == [c.agua, b.agua, a.agua]
  {
  }

  /**
    As written, deleting the entry being edited leaves the target behind: the
    form then shows an empty "new entry" form without a cancel button, but the
    next save of any valid values takes the edit path, matches no entry and
    stores nothing.
  */
  lemma StaleTargetSwallowsEntry(entry: Record, typed: Values, now: int, today: string, dayMonth: int -> string)
    requires entry.id != 0
    requires !AnyNegative(typed.exercicio, typed.calorias, typed.agua)
    ensures var s2 := HandleDelete(BeginEdit(Session([entry], None), entry), entry.id);
            var v := Render(s2, Ordering.Recentes, dayMonth);
            var r := Submit(s2, Typed(typed), now, today);
            && !TargetValid(s2)
            && v.editingRecord.None? && !v.cancelOffered
            && Prefill(v.editingRecord) == Fields("", "", "")
            && r.outcome == Updated
            && r.session.records == []
  {
    var s2 := Session([], Some(entry.id));
    DeleteEditedOnly(entry);
    EmptyScreen(s2.editing, Ordering.Recentes, dayMonth);
    StoreUpdatesNothing(entry.id, typed.exercicio, typed.calorias, typed.agua, now, today);
  }

  /** Deleting the only entry while editing it leaves no entry and the target in place. */
  lemma DeleteEditedOnly(entry: Record)
    ensures HandleDelete(BeginEdit(Session([entry], None), entry), entry.id) == Session([], Some(entry.id))
  {
    assert [entry][1..] == [];
  }

  /** With no entries stored, the form gets nothing to edit and offers no cancel. */
  lemma EmptyScreen(editing: Option<int>, ordenacao: Ordering.Ordenacao, dayMonth: int -> string)
    ensures var v := Render(Session([], editing), ordenacao, dayMonth);
            v.editingRecord.None? && !v.cancelOffered
  {
  }

  /** With the releasing delete, the save after deleting the edited entry creates the new entry. */
  lemma ReleasedTargetKeepsEntry(entry: Record, typed: Values, now: int, today: string)
    requires !AnyNegative(typed.exercicio, typed.calorias, typed.agua)
    ensures var s2 := StepReleasing(BeginEdit(Session([entry], None), entry), DeleteEntry(entry.id));
            var r := Submit(s2, Typed(typed), now, today);
            && TargetValid(s2)
            && r.outcome == Created
            && r.session.records == [Record(now, today, typed.exercicio, typed.calorias, typed.agua)]
  {
    ReleasingDeleteOnly(entry);
    StoreCreatesFirst(typed.exercicio, typed.calorias, typed.agua, now, today);
  }

  /** The releasing delete of the only entry, while editing it, leaves nothing and no target. */
  lemma ReleasingDeleteOnly(entry: Record)
    ensures StepReleasing(BeginEdit(Session([entry], None), entry), DeleteEntry(entry.id)) == Session([], None)
  {
    var s1 := BeginEdit(Session([entry], None), entry);
    assert s1.records[1..] == [];
    assert Delete(s1.records, entry.id) == [];
  }
}
